=== FILE: README.md ===
# Parking inventory: slot bookkeeping in Dafny

This project models the slot bookkeeping of a parking-inventory app. The app
has an Express/Mongoose backend and a React dashboard. Every parking location
has a unique trimmed name, a `totalSlots` count, an `availableSlots` count and
an `isAvailable` flag. The model covers:

- **Backend schema** (`parking_model.dfy`, module `ParkingModel`). This holds
  the field rules of the Mongoose schema as a set of violated rules. It also
  holds the pre-save hook that re-derives `isAvailable = availableSlots > 0`.
  `save()` is modelled as validate, then hook, then write, where the write is
  guarded by the unique indexes. The store invariants live here too: each
  record is keyed by its own id, names are unique, and names are trimmed and
  non-empty with non-negative counts (`WellFormed`). `Consistent` is the
  stronger invariant that every record is valid and has a derived flag.
- **Controller** (`parking_controller.dfy`, module `ParkingController`). Each
  of the six handlers is a pure function from a store and a request to a
  status, a message and the next store. The one exception is the list
  handler, which is a method that walks the store's keys.
- **Dialog form** (`parking_form.dfy`, module `ParkingForm`). This covers the
  zod schema with its cross-field refinement, the create defaults, and the
  four stepper buttons.
- **Card and stats** (`parking_card.dfy`, `parking_stats.dfy`). The card part
  is the Full / Almost Full / Available classification. The percentage is
  defined with exact rationals, and the integer comparison is proved
  equivalent to it. The stats part is the aggregate sums and the
  available-location count, computed by a left-to-right loop and checked
  against head-first reference sums.
- **Dashboard page** (`index_page.dfy`, module `IndexPage`). This covers the
  name search and the requests a submitted dialog sends. Those requests are
  run against the controller, which gives end-to-end facts about editing and
  creating a lot.
- `types.dfy` holds the shared records (after `types/parking.ts`). `text.dfy`
  holds `trim`, ASCII `toLowerCase` and `includes`.

Conventions: `None` stands for a JSON field that is `undefined`. A store is a
`map<Id, Parking>`. The id a create would receive is a parameter (`newId`).

## Behaviour of the code worth knowing

- A flag-only availability patch does not keep the sent flag. `save()` runs
  the pre-save hook, which overwrites it with `availableSlots > 0`
  (`FlagOnlyPatch`, `PatchIgnoresFlag`). So *flipping* the dashboard's
  switch never sticks when the new position disagrees with the counts
  (`EditedFlagIsRederived`, `SwitchCannotOverrideCounts`). Leaving the switch
  alone sends only the PUT, which keeps the stored flag even when the new
  counts contradict it (`EditWithoutSwitchKeepsFlag`). Two edits can
  therefore leave a lot switched off with free slots: 0 of 10 free with the
  switch flipped off, then 5 free with the switch left alone
  (`LeftAloneSwitchCanContradictCounts`).
- The full update (PUT) does not re-derive the flag. `findByIdAndUpdate`
  bypasses the hook and writes whatever flag it was sent
  (`UpdateWritesAsSent`, `UpdateLeavesFlagStale`).
- A create or an availability patch that breaks a schema rule is answered
  with 500 by the generic catch, not with 400 (`CreateInvalidIsServerError`,
  `PatchNegativeIsServerError`, `PatchSucceedsIff`). Besides the create's
  missing-field check, only the PATCH's own `availableSlots > totalSlots`
  check and a duplicate key on create give 400.
- On PUT, the update validators run before the lookup. So a body they reject
  gets 500 even when the id is unknown (`UpdateParking`).

## Model

| member | source | states |
|---|---|---|
| Text.Trim | backend/models/Parking.js:8 | the stored name is the run of the input between its leading and its trailing JavaScript whitespace, and has no whitespace at either end |
| Text.TrimFixesTrimmed | backend/models/Parking.js:8 | trimming leaves exactly the already-trimmed strings unchanged, so trimming twice equals trimming once |
| Text.TrimEmptyIff | backend/models/Parking.js:5-8 | a name trims to the empty string exactly when every character is whitespace |
| Text.Lower | parking-spot-manager/src/pages/Index.tsx:32 | lower-casing keeps the length and maps each character on its own (ASCII letters only) |
| Text.Includes | parking-spot-manager/src/pages/Index.tsx:32 | every string includes the empty string, nothing longer than the string is included, and a needle of the same length is included exactly when it equals the string |
| Text.IncludesInfix | parking-spot-manager/src/pages/Index.tsx:32 | a string includes every run it contains, wherever that run sits |
| Text.IncludesSplits | parking-spot-manager/src/pages/Index.tsx:32 | an included needle splits the string into a part before it, the needle, and a part after it |
| ParkingModel.NewDocument | backend/models/Parking.js:5-30 | a newly cast document stores the input name with its surrounding whitespace removed (an already-trimmed name kept as given), the counts as sent, and isAvailable true by default |
| ParkingModel.Violations | backend/models/Parking.js:5-26 | each schema rule is in the violation set exactly when its validator refuses the document |
| ParkingModel.SchemaValid | backend/models/Parking.js:5-26 | a document passes the schema exactly when its name is non-empty and 0 <= availableSlots <= totalSlots |
| ParkingModel.NewDocumentValidIff | backend/models/Parking.js:5-30 | a newly cast document is valid exactly when the name is not all whitespace and 0 <= available <= total |
| ParkingModel.PreSave | backend/models/Parking.js:38-41 | after the hook, isAvailable is exactly availableSlots > 0 whatever it was before, and no other field changes |
| ParkingModel.PreSaveIdempotent | backend/models/Parking.js:38-41 | running the hook twice gives the same document as running it once |
| ParkingModel.PreSaveForgetsFlag | backend/models/Parking.js:38-41 | the hook's result does not depend on the incoming flag |
| ParkingModel.PreSaveKeepsViolations | backend/models/Parking.js:11-41 | the hook neither breaks nor repairs any schema rule |
| ParkingModel.Save | backend/models/Parking.js:3-41 | save succeeds exactly when the document is valid, its id is not taken by an insert and no other record has the name; the saved record is valid, has a derived flag and replaces only its own key; a failed save writes nothing |
| ParkingModel.SaveIgnoresFlag | backend/models/Parking.js:38-41 | the whole outcome of save, stored record included, is the same whatever flag the document had |
| ParkingModel.SavePreservesWellFormed | backend/models/Parking.js:5-26 | a save keeps ids matching keys, names unique, and names trimmed and non-empty with non-negative counts |
| ParkingModel.SavePreservesConsistent | backend/models/Parking.js:5-41 | a save keeps every record valid with a derived flag |
| ParkingController.GetAllParkings | backend/controllers/parkingController.js:5-20 | the list holds every stored record exactly once, nothing else, and the count equals the number of records |
| ParkingController.GetParkingById | backend/controllers/parkingController.js:24-46 | returns 200 with the record exactly when the id is stored, otherwise 404; the store never changes |
| ParkingController.CreateParking | backend/controllers/parkingController.js:50-90 | create answers 201, 400 or 500; only a 201 changes the store, and it adds one record under a previously unused id with all present fields |
| ParkingController.CreateMissingField | backend/controllers/parkingController.js:55-64 | a falsy name (missing or "") or an undefined slot count gets 400 with the missing-fields message, and the store is unchanged |
| ParkingController.CreateIgnoresFlag | backend/controllers/parkingController.js:52-70 | the outcome of create is the same whatever isAvailable the body carries |
| ParkingController.CreateSucceedsIff | backend/controllers/parkingController.js:66-76 | create succeeds exactly when the fields are present, the trimmed name is non-blank and unused, the id is fresh and 0 <= available <= total; the record then has the trimmed name and isAvailable = available > 0 |
| ParkingController.CreateWithNoFreeSlot | backend/models/Parking.js:27-41 | a lot created with 0 free slots is stored unavailable, despite the schema default true |
| ParkingController.CreateDuplicateName | backend/controllers/parkingController.js:77-83 | a valid request whose trimmed name or id is already used gets 400 with the duplicate message, and the store is unchanged |
| ParkingController.CreateInvalidIsServerError | backend/controllers/parkingController.js:77-89 | a present request that breaks a schema rule (whitespace-only name, negative count, more free than total) gets 500 even when the name is also taken, and the store is unchanged |
| ParkingController.CreatePreservesInvariants | backend/controllers/parkingController.js:66-70 | create keeps the store well formed, and keeps it consistent if it was |
| ParkingController.StripName | backend/controllers/parkingController.js:96-97 | the update payload never carries a name, and everything else in the body is kept |
| ParkingController.ApplyUpdate | backend/controllers/parkingController.js:99-102 | each field the update carries is written as sent, each it leaves out keeps its stored value, and the id and name never change |
| ParkingController.UpdateParking | backend/controllers/parkingController.js:94-123 | PUT answers 200 exactly when the validators accept the body and the id is stored; a body the validators reject gets 500 even for an unknown id; on 200 only that record changes and its id and name stay; on 404 or 500 nothing changes |
| ParkingController.UpdateMissingId | backend/controllers/parkingController.js:104-109 | an unknown id with an acceptable body gets 404, and the store is unchanged |
| ParkingController.UpdateWritesAsSent | backend/controllers/parkingController.js:99-102 | a successful PUT stores the sent counts and the sent flag as they are, keeps the stored values of fields left out, and never re-derives the flag |
| ParkingController.UpdateLeavesFlagStale | backend/controllers/parkingController.js:99-102 | a lot with 10 of 10 free slots, updated by PUT to 0 free, keeps isAvailable true |
| ParkingController.UpdatePreservesWellFormed | backend/controllers/parkingController.js:96-102 | PUT keeps names unique and unchanged, and keeps counts non-negative |
| ParkingController.DeleteParking | backend/controllers/parkingController.js:127-150 | delete of an unknown id gets 404 with no change; otherwise exactly that key is removed and every other record is untouched |
| ParkingController.DeletePreservesInvariants | backend/controllers/parkingController.js:129-142 | delete keeps the store well formed and consistent |
| ParkingController.PatchDocument | backend/controllers/parkingController.js:168-181 | before the save, the record carries the sent count and flag where sent and its stored values otherwise; id, name and total are kept |
| ParkingController.UpdateAvailability | backend/controllers/parkingController.js:154-197 | PATCH gets 404 exactly for an unknown id, and 400 exactly when the sent count exceeds the stored total, with no change in either case; on 200 the name and total stay, the count is the sent one or the old one, the flag equals count > 0, and the record is valid |
| ParkingController.PatchIgnoresFlag | backend/controllers/parkingController.js:179-183 | the whole outcome of a PATCH is the same whatever isAvailable is sent, or if none is |
| ParkingController.PatchSucceedsIff | backend/controllers/parkingController.js:166-196 | on a well-formed store, a PATCH gets 200 exactly when the resulting count lies in [0, totalSlots], and 500 exactly when it does not and the controller's own 400 check did not fire |
| ParkingController.FlagOnlyPatch | backend/controllers/parkingController.js:179-196 | a flag-only PATCH succeeds exactly when the stored counts are valid (otherwise 500), and then sets the flag to availableSlots > 0, not to the value sent |
| ParkingController.PatchNegativeIsServerError | backend/controllers/parkingController.js:168-196 | a negative availableSlots passes the controller's own check, fails the schema, and gets 500 with the store unchanged |
| ParkingController.PatchPreservesInvariants | backend/controllers/parkingController.js:154-197 | PATCH keeps the store well formed, and keeps it consistent if it was |
| ParkingController.LotLifecycle | backend/controllers/parkingController.js:154-197 | creating a lot with 10 of 10 free, then patching it to 0 free, then patching only the flag to true leaves it unavailable with 0 free |
| ParkingForm.Issues | parking-spot-manager/src/components/parking/ParkingFormDialog.tsx:26-34 | each field check is reported exactly when it fails, the refinement, when reported, is the last issue, and there are at most five |
| ParkingForm.Accepts | parking-spot-manager/src/components/parking/ParkingFormDialog.tsx:26-34 | the form submits exactly when the name has 1 to 100 characters, total >= 1 and 0 <= available <= total |
| ParkingForm.ExceedsReportedOnAvailable | parking-spot-manager/src/components/parking/ParkingFormDialog.tsx:31-34 | the refinement is reported, on the availableSlots path with its own message, exactly when available > total, even alongside other issues |
| ParkingForm.DefaultsNeedOnlyAName | parking-spot-manager/src/components/parking/ParkingFormDialog.tsx:57-62 | the create defaults 100/100/true produce only the empty-name issue, and any 1 to 100 character name makes them acceptable |
| ParkingForm.DecrementTotal | parking-spot-manager/src/components/parking/ParkingFormDialog.tsx:151 | the total minus button never goes below 1, and otherwise subtracts exactly 1 |
| ParkingForm.DecrementAvailable | parking-spot-manager/src/components/parking/ParkingFormDialog.tsx:185 | the available minus button never goes below 0, and otherwise subtracts exactly 1 |
| ParkingForm.Increment | parking-spot-manager/src/components/parking/ParkingFormDialog.tsx:161 | a plus button adds exactly 1, with no upper bound |
| ParkingForm.StepperRoundTrips | parking-spot-manager/src/components/parking/ParkingFormDialog.tsx:151-195 | minus undoes plus on admissible values, plus undoes minus above the floor, and minus is the identity at the floor |
| ParkingForm.DecrementsKeepFieldRules | parking-spot-manager/src/components/parking/ParkingFormDialog.tsx:151-195 | on accepted values, available minus keeps them accepted, and total minus does too while available < total |
| ParkingForm.SteppersCanBreakRefinement | parking-spot-manager/src/components/parking/ParkingFormDialog.tsx:185-195 | on a lot with every slot free (available == total), available plus (or total minus) yields values whose only issue is the refinement on availableSlots |
| ParkingCard.OccupancyAtLeast80 | parking-spot-manager/src/components/parking/ParkingCard.tsx:16-20 | for a positive total, occupancy >= 80% is exactly (total - available) * 100 >= 80 * total, that is 5 * available <= total; for a zero total, the division by zero counts as >= 80% exactly when available is negative |
| ParkingCard.GetStatusColor | parking-spot-manager/src/components/parking/ParkingCard.tsx:18-22 | destructive exactly when the flag is off or nothing is free, for every record; otherwise, for a positive total, warning exactly when at most a fifth of the slots are free |
| ParkingCard.GetStatusText | parking-spot-manager/src/components/parking/ParkingCard.tsx:24-28 | the text is one of Full, Almost Full and Available, and is Full exactly when the flag is off or nothing is free |
| ParkingCard.TextMatchesColor | parking-spot-manager/src/components/parking/ParkingCard.tsx:18-28 | the status text always pairs with the colour (Full/destructive, Almost Full/warning, Available/success), and the pairing is one-to-one |
| ParkingCard.StatusOfValidRecord | parking-spot-manager/src/components/parking/ParkingCard.tsx:18-22 | for a valid record: destructive exactly when the flag is off or nothing is free; warning exactly when otherwise at most a fifth is free; success otherwise |
| ParkingCard.PercentDefinedWhereUsed | parking-spot-manager/src/components/parking/ParkingCard.tsx:16-20 | on a valid record that is not Full, total > 0, so the percentage is defined |
| ParkingCard.OccupiedCount | parking-spot-manager/src/components/parking/ParkingCard.tsx:87 | occupied plus available is the total, and for a valid record occupied lies in [0, total] |
| ParkingStats.SumAppend | parking-spot-manager/src/components/parking/ParkingStats.tsx:11-12 | the slot sums are additive over concatenation, so they do not depend on how the list is split |
| ParkingStats.ComputeStats | parking-spot-manager/src/components/parking/ParkingStats.tsx:11-19 | the left-to-right reduces equal the reference sums of totals and of free slots; occupied is their difference; available locations counts records with the flag set and a free slot; locations is the list length |
| ParkingStats.OccupiedBounds | parking-spot-manager/src/components/parking/ParkingStats.tsx:11-13 | when every record is valid, 0 <= totalOccupied <= totalSlots |
| ParkingStats.OccupiedIsSumOfCards | parking-spot-manager/src/components/parking/ParkingStats.tsx:13 | totalOccupied equals the sum of the occupied counts shown on the cards |
| ParkingStats.AvailableLocationsBound | parking-spot-manager/src/components/parking/ParkingStats.tsx:14 | availableLocations lies between 0 and the number of locations |
| ParkingStats.AvailableLocationsAreNonFullCards | parking-spot-manager/src/components/parking/ParkingStats.tsx:14 | with no negative counts, availableLocations is the number of cards not shown as Full |
| IndexPage.MatchesQuery | parking-spot-manager/src/pages/Index.tsx:32 | an empty query matches every record, a match is never longer than the name, and a query equal to the name up to ASCII case matches |
| IndexPage.MatchesQueryIff | parking-spot-manager/src/pages/Index.tsx:31-33 | a record matches exactly when the lower-cased query occurs somewhere inside its lower-cased name |
| IndexPage.SearchFindsWordInsideName | parking-spot-manager/src/pages/Index.tsx:31-33 | the query "street" matches the record named "Main Street Parking" |
| IndexPage.FilterParkings | parking-spot-manager/src/pages/Index.tsx:31-33 | the search result is no longer than the input, and every kept record's lower-cased name includes the lower-cased query |
| IndexPage.FilterIsSubsequence | parking-spot-manager/src/pages/Index.tsx:31-33 | the search result is an order-preserving subsequence of the input |
| IndexPage.FilterKeepsMatches | parking-spot-manager/src/pages/Index.tsx:31-33 | no record whose name matches the query is dropped |
| IndexPage.FilterKeepsEveryCopy | parking-spot-manager/src/pages/Index.tsx:31-33 | the result holds exactly as many copies of each record as the input when the record matches the query, and none when it does not |
| IndexPage.EmptyQueryKeepsAll | parking-spot-manager/src/pages/Index.tsx:31-33 | an empty query keeps the whole list |
| IndexPage.FilterIdempotent | parking-spot-manager/src/pages/Index.tsx:31-33 | filtering the result again by the same query changes nothing |
| IndexPage.FullNameFindsRecord | parking-spot-manager/src/pages/Index.tsx:31-33 | searching for a record's full name keeps that record |
| IndexPage.SubmitPlan | parking-spot-manager/src/pages/Index.tsx:44-73 | an edit sends a PUT of only the two counts, then a flag-only PATCH exactly when the switch differs from the stored flag; a create sends one POST of name and counts without the flag |
| IndexPage.PlanSendsOnlyWhatItShould | parking-spot-manager/src/pages/Index.tsx:50-69 | no PUT carries a name or flag, no POST carries a flag, no PATCH carries a count, and a PATCH always comes right after the PUT to the same record |
| IndexPage.RunPlan | parking-spot-manager/src/pages/Index.tsx:50-70 | requests run in order: the first response is the first request's, every response but the last is a success, a plan cut short ends on an error, and an error on the first request ends the plan with that request's store |
| IndexPage.RejectedPutSendsNoPatch | parking-spot-manager/src/pages/Index.tsx:50-63 | an edit whose PUT is refused (404 or 500) gets only that response: the flag PATCH is never sent and the store is unchanged |
| IndexPage.EditedFlagIsRederived | parking-spot-manager/src/pages/Index.tsx:50-63 | an accepted edit that flips the switch gets two 200s, and stores the form's counts with the flag available > 0 and the name unchanged |
| IndexPage.SwitchCannotOverrideCounts | parking-spot-manager/src/pages/Index.tsx:58-63 | the stored flag ends up different from the switch exactly when the switch disagrees with whether a slot is free |
| IndexPage.EditWithoutSwitchKeepsFlag | parking-spot-manager/src/pages/Index.tsx:50-58 | an edit that leaves the switch alone sends only the PUT, and the old flag stays even if the new counts contradict it |
| IndexPage.LeftAloneSwitchCanContradictCounts | parking-spot-manager/src/pages/Index.tsx:50-58 | two edits, the first flipping the switch off at 0 of 10 free and the second setting 5 free with the switch left alone, both succeed and leave the lot switched off with 5 free slots |
| IndexPage.CreateFromDialog | parking-spot-manager/src/pages/Index.tsx:64-69 | an accepted create succeeds exactly when the name is not blank after trimming and is unused; the record's flag comes from the counts; a whitespace-only name, which the form accepts, gets 500 |

## Left out

- Database failures are not modelled: the store never rejects a read or a write. In the code, a failed or timed-out `find`, `findById`, `create`, `findByIdAndUpdate`, `findByIdAndDelete` or `save` reaches each handler's catch and is answered with 500.
- ParkingController.GetAllParkings: always answers 200, because a failing `find()` (500 in the code) is not modelled.
- ParkingController.DeleteParking: answers only 200 or 404, because a failing `findByIdAndDelete` (500 in the code) is not modelled.
- Express wiring, CORS, environment loading and the listen call (`backend/server.js`) are left out. The route table appears only as a comment in `parking_controller.dfy`.
- HTTP plumbing, react-query caching, cache invalidation and toasts (`parkingApi.ts`, `useParkings.ts`) are left out. A client request is modelled as a direct call of the handler. An error status stops the plan because `mutateAsync` rejects.
- JSX rendering, animation, dialog open/close state and the form reset effect are left out. They compute nothing the bookkeeping depends on.
- Timestamps (`createdAt`, `updatedAt`) and the `success` and `error` envelope fields are left out. `success` is just `status < 400`.
- Ids are opaque strings, so a malformed id is treated as an unknown id (404). The real code answers it with a Mongoose cast error, which is 500.
- Request values are modelled as absent or well typed. The model does not cover `null`, numeric strings or a non-string name, which Mongoose would cast or reject.
- Counts are integers. A fractional count such as 2.5 is not modelled, although the form's `z.coerce.number()` and the schema's `Number` type both accept it and the store keeps it as sent.
- The race between `findById` and `save` in the availability handler is left out. Every request runs alone.
- UpdateParking: the custom `availableSlots <= this.totalSlots` validator under `runValidators` is the abstract parameter `availableRule` over the stripped body. What `this` is bound to there is a Mongoose internal that the model does not cover.
- Text.Lower: only ASCII letters are lower-cased, not Unicode case mapping.
- ParkingForm.Accepts: name length is counted in characters, not UTF-16 code units as zod does.
- ParkingCard.OccupancyAtLeast80: the percentage uses exact rational arithmetic. Floating-point rounding near the 80% boundary is not modelled. Division by a zero total follows JavaScript's Infinity/NaN outcomes.
- Mongoose's validation error messages are left out. The model keeps only the set of violated rules, because every validation error becomes the same 500 response.
- GetAllParkings: the order of `find()` results is left open.

=== FILE: index_page.dfy ===
/** The dashboard page parking-spot-manager/src/pages/Index.tsx: the name
    search over the fetched list, and the requests `handleFormSubmit` sends
    for a submitted dialog, run against the controller.
 */
module IndexPage {
  import opened Types
  import Text
  import ParkingForm
  import opened ParkingModel
  import opened ParkingController

  // ---------------------------------------------------------------------------
  // Search

  /** `p.parkingName.toLowerCase().includes(searchQuery.toLowerCase())`. */
  function MatchesQuery(p: Parking, query: string): (r: bool)
    ensures query == [] ==> r
    ensures r ==> |query| <= |p.name|
    ensures Text.Lower(query) == Text.Lower(p.name) ==> r
  {
    Text.Includes(Text.Lower(p.name), Text.Lower(query))
  }

  /** A query whose lower-cased form occurs anywhere inside the lower-cased
      name matches, so "street" finds "Main Street Parking"; and a match
      means exactly that. */
  lemma MatchesQueryIff(p: Parking, query: string, a: string, c: string)
    ensures Text.Lower(p.name) == a + Text.Lower(query) + c ==> MatchesQuery(p, query)
    ensures MatchesQuery(p, query) ==> exists a', c' :: Text.Lower(p.name) == a' + Text.Lower(query) + c'
  {
    if Text.Lower(p.name) == a + Text.Lower(query) + c {
      Text.IncludesInfix(a, Text.Lower(query), c);
    }
    if MatchesQuery(p, query) {
      Text.IncludesSplits(Text.Lower(p.name), Text.Lower(query));
    }
  }

  /** "street" finds "Main Street Parking". */
  lemma SearchFindsWordInsideName(p: Parking)
    requires p.name == "Main Street Parking"
    ensures MatchesQuery(p, "street")
  {
    assert Text.Lower(p.name) == "main " + Text.Lower("street") + " parking";
    MatchesQueryIff(p, "street", "main ", " parking");
  }

  /** `filteredParkings`. */
  function FilterParkings(ps: seq<Parking>, query: string): (r: seq<Parking>)
    ensures |r| <= |ps|
    ensures forall i | 0 <= i < |r| :: MatchesQuery(r[i], query)
    decreases |ps|
  {
    if ps == [] then []
    else if MatchesQuery(ps[0], query) then [ps[0]] + FilterParkings(ps[1..], query)
    else FilterParkings(ps[1..], query)
  }

  /** `a` is `b` with some elements removed, the rest in their order. */
  ghost predicate IsSubsequence<T>(a: seq<T>, b: seq<T>)
    decreases |b|
  {
    || a == []
    || (b != [] && ((a[0] == b[0] && IsSubsequence(a[1..], b[1..])) || IsSubsequence(a, b[1..])))
  }

  /** The search result keeps the input's order: it is a subsequence. */
  lemma {:induction false} FilterIsSubsequence(ps: seq<Parking>, query: string)
    ensures IsSubsequence(FilterParkings(ps, query), ps)
    decreases |ps|
  {
    if ps != [] {
      FilterIsSubsequence(ps[1..], query);
      var r := FilterParkings(ps, query);
      if MatchesQuery(ps[0], query) {
        assert r[1..] == FilterParkings(ps[1..], query);
      }
    }
  }

  /** No matching record is dropped. */
  lemma {:induction false} FilterKeepsMatches(ps: seq<Parking>, query: string)
    ensures forall i | 0 <= i < |ps| && MatchesQuery(ps[i], query) :: ps[i] in FilterParkings(ps, query)
    decreases |ps|
  {
    if ps != [] {
      FilterKeepsMatches(ps[1..], query);
      forall i | 0 < i < |ps| && MatchesQuery(ps[i], query)
        ensures ps[i] in FilterParkings(ps, query)
      {
        assert ps[1..][i - 1] == ps[i];
      }
    }
  }

  /** Counted with multiplicity, the search result holds every copy of each
      matching record and nothing else. */
  lemma {:induction false} FilterKeepsEveryCopy(ps: seq<Parking>, query: string)
    ensures forall x :: multiset(FilterParkings(ps, query))[x] ==
                          if MatchesQuery(x, query) then multiset(ps)[x] else 0
    decreases |ps|
  {
    if ps != [] {
      FilterKeepsEveryCopy(ps[1..], query);
      assert ps == [ps[0]] + ps[1..];
    }
  }

  /** An empty search box shows every record. */
  lemma {:induction false} EmptyQueryKeepsAll(ps: seq<Parking>)
    ensures FilterParkings(ps, "") == ps
    decreases |ps|
  {
    if ps != [] {
      EmptyQueryKeepsAll(ps[1..]);
    }
  }

  /** Searching the search result again changes nothing. */
  lemma {:induction false} FilterIdempotent(ps: seq<Parking>, query: string)
    ensures FilterParkings(FilterParkings(ps, query), query) == FilterParkings(ps, query)
    decreases |ps|
  {
    if ps != [] {
      FilterIdempotent(ps[1..], query);
      if MatchesQuery(ps[0], query) {
        var r := FilterParkings(ps, query);
        assert r[0] == ps[0] && r[1..] == FilterParkings(ps[1..], query);
      }
    }
  }

  /** Typing a record's full name finds it. */
  lemma FullNameFindsRecord(ps: seq<Parking>, i: int)
    requires 0 <= i < |ps|
    ensures ps[i] in FilterParkings(ps, ps[i].name)
  {
    FilterKeepsMatches(ps, ps[i].name);
  }

  // ---------------------------------------------------------------------------
  // Submitting the dialog

  datatype ApiRequest =
    | PostParking(body: CreateBody)
    | PutParking(id: Id, update: UpdateBody)
    | PatchAvailability(id: Id, patch: AvailabilityBody)

  /** `handleFormSubmit`: for an edit, a PUT of the two counts and, when the
      switch was flipped, a PATCH of the flag alone; for a create, a POST of
      name and counts. */
  function SubmitPlan(editing: Option<Parking>, v: ParkingForm.FormValues): (plan: seq<ApiRequest>)
    ensures 1 <= |plan| <= 2
    ensures editing.None? ==>
              plan == [PostParking(CreateBody(Some(v.parkingName), Some(v.totalSlots), Some(v.availableSlots), None))]
    ensures editing.Some? ==>
              && plan[0] == PutParking(editing.value.id, UpdateBody(None, Some(v.totalSlots), Some(v.availableSlots), None))
              && (|plan| == 2 <==> v.isAvailable != editing.value.isAvailable)
              && (|plan| == 2 ==> plan[1] == PatchAvailability(editing.value.id, AvailabilityBody(None, Some(v.isAvailable))))
  {
    match editing
    case Some(p) =>
      var put := PutParking(p.id, UpdateBody(None, Some(v.totalSlots), Some(v.availableSlots), None));
      if v.isAvailable != p.isAvailable then
        [put, PatchAvailability(p.id, AvailabilityBody(None, Some(v.isAvailable)))]
      else [put]
    case None =>
      [PostParking(CreateBody(Some(v.parkingName), Some(v.totalSlots), Some(v.availableSlots), None))]
  }

  /** What the plan never sends: no name or flag in a PUT, no flag in a POST,
      no count in a PATCH, and a PATCH only straight after the PUT to the
      same record. */
  lemma PlanSendsOnlyWhatItShould(editing: Option<Parking>, v: ParkingForm.FormValues)
    ensures var plan := SubmitPlan(editing, v);
            forall i | 0 <= i < |plan| ::
              && (plan[i].PutParking? ==> plan[i].update.parkingName.None? && plan[i].update.isAvailable.None?)
              && (plan[i].PostParking? ==> plan[i].body.isAvailable.None? && editing.None?)
              && (plan[i].PatchAvailability? ==>
                    && plan[i].patch.availableSlots.None?
                    && 0 < i && plan[i - 1].PutParking? && plan[i - 1].id == plan[i].id)
  {
  }

  /** One request against the controller; `newId` is what the store would
      assign to a created record. */
  function Execute(s: Store, req: ApiRequest, newId: Id, availableRule: UpdateBody -> bool): Handled {
    match req
    case PostParking(b) => CreateParking(s, newId, b)
    case PutParking(id, u) => UpdateParking(s, id, u, availableRule)
    case PatchAvailability(id, b) => UpdateAvailability(s, id, b)
  }

  datatype Outcome = Outcome(responses: seq<Response>, store: Store)

  /** The awaited requests in order; an error status rejects the mutation's
      promise, so nothing after it is sent. The first response is the first
      request's, every response but the last is a success, and a plan cut
      short ends on an error. */
  function RunPlan(s: Store, plan: seq<ApiRequest>, newId: Id, availableRule: UpdateBody -> bool): (o: Outcome)
    ensures |o.responses| <= |plan|
    ensures plan != [] ==> o.responses != [] && o.responses[0] == Execute(s, plan[0], newId, availableRule).response
    ensures forall k | 0 <= k < |o.responses| - 1 :: o.responses[k].status < 400
    ensures |o.responses| < |plan| ==> o.responses != [] && o.responses[|o.responses| - 1].status >= 400
    ensures plan != [] && Execute(s, plan[0], newId, availableRule).response.status >= 400 ==>
              o.responses == [Execute(s, plan[0], newId, availableRule).response]
              && o.store == Execute(s, plan[0], newId, availableRule).store
    decreases |plan|
  {
    if plan == [] then Outcome([], s)
    else
      var h := Execute(s, plan[0], newId, availableRule);
      if h.response.status >= 400 then Outcome([h.response], h.store)
      else
        var rest := RunPlan(h.store, plan[1..], newId, availableRule);
        Outcome([h.response] + rest.responses, rest.store)
  }

  /** Editing a lot and flipping its switch: the PUT stores the counts, the
      follow-up PATCH is saved, and the pre-save hook sets the flag to
      `availableSlots > 0`, so the switch position the operator chose is
      lost whenever it disagrees with the counts. */
  lemma EditedFlagIsRederived(s: Store, p: Parking, v: ParkingForm.FormValues, availableRule: UpdateBody -> bool, newId: Id)
    requires WellFormed(s)
    requires p.id in s && s[p.id] == p
    requires ParkingForm.Accepts(v)
    requires v.isAvailable != p.isAvailable
    requires availableRule(UpdateBody(None, Some(v.totalSlots), Some(v.availableSlots), None))
    ensures var o := RunPlan(s, SubmitPlan(Some(p), v), newId, availableRule);
            && |o.responses| == 2
            && o.responses[0].status == OK && o.responses[1].status == OK
            && p.id in o.store
            && o.store[p.id] == Parking(p.id, p.name, v.totalSlots, v.availableSlots, v.availableSlots > 0)
  {
    var put := UpdateBody(None, Some(v.totalSlots), Some(v.availableSlots), None);
    var patch := AvailabilityBody(None, Some(v.isAvailable));
    var plan := [PutParking(p.id, put), PatchAvailability(p.id, patch)];
    assert SubmitPlan(Some(p), v) == plan;
    var h1 := UpdateParking(s, p.id, put, availableRule);
    assert h1.response.status == OK;
    UpdateWritesAsSent(s, p.id, put, availableRule);
    UpdatePreservesWellFormed(s, p.id, put, availableRule);
    var s1 := h1.store;
    assert s1[p.id] == Parking(p.id, p.name, v.totalSlots, v.availableSlots, p.isAvailable);
    PatchSucceedsIff(s1, p.id, patch);
    var h2 := UpdateAvailability(s1, p.id, patch);
    assert h2.response.status == OK;
    assert RunPlan(s1, plan[1..], newId, availableRule) == Outcome([h2.response], h2.store) by {
      assert plan[1..][1..] == [];
    }
    assert RunPlan(s, plan, newId, availableRule) == Outcome([h1.response, h2.response], h2.store);
  }

  /** An edit whose PUT is refused (the validators reject the counts, or the
      record is gone) gets that one error back: the follow-up PATCH of the
      flag is never sent and the store is unchanged. */
  lemma RejectedPutSendsNoPatch(s: Store, p: Parking, v: ParkingForm.FormValues, availableRule: UpdateBody -> bool, newId: Id)
    requires p.id !in s || !UpdateValidatorsPass(UpdateBody(None, Some(v.totalSlots), Some(v.availableSlots), None), availableRule)
    ensures var o := RunPlan(s, SubmitPlan(Some(p), v), newId, availableRule);
            && |o.responses| == 1
            && o.responses[0].status in {NOT_FOUND, SERVER_ERROR}
            && o.store == s
  {
    var plan := SubmitPlan(Some(p), v);
    var h := UpdateParking(s, p.id, plan[0].update, availableRule);
    assert h.response.status != OK;
    assert Execute(s, plan[0], newId, availableRule) == h;
  }

  /** So flipping the switch never sticks when its new position disagrees
      with the counts: an operator cannot flip a lot with a free slot off, nor
      one with none on. Leaving the switch alone is another matter (see
      `EditWithoutSwitchKeepsFlag`). */
  lemma SwitchCannotOverrideCounts(s: Store, p: Parking, v: ParkingForm.FormValues, availableRule: UpdateBody -> bool, newId: Id)
    requires WellFormed(s)
    requires p.id in s && s[p.id] == p
    requires ParkingForm.Accepts(v)
    requires v.isAvailable != p.isAvailable
    requires availableRule(UpdateBody(None, Some(v.totalSlots), Some(v.availableSlots), None))
    ensures var o := RunPlan(s, SubmitPlan(Some(p), v), newId, availableRule);
            && p.id in o.store
            && (o.store[p.id].isAvailable != v.isAvailable <==> (v.isAvailable <==> v.availableSlots == 0))
  {
    EditedFlagIsRederived(s, p, v, availableRule, newId);
  }

  /** Editing without touching the switch sends the PUT alone, which keeps the
      stored flag even when the new counts contradict it. */
  lemma EditWithoutSwitchKeepsFlag(s: Store, p: Parking, v: ParkingForm.FormValues, availableRule: UpdateBody -> bool, newId: Id)
    requires p.id in s && s[p.id] == p
    requires v.isAvailable == p.isAvailable
    requires UpdateValidatorsPass(UpdateBody(None, Some(v.totalSlots), Some(v.availableSlots), None), availableRule)
    ensures var o := RunPlan(s, SubmitPlan(Some(p), v), newId, availableRule);
            && |o.responses| == 1 && o.responses[0].status == OK
            && p.id in o.store
            && o.store[p.id] == Parking(p.id, p.name, v.totalSlots, v.availableSlots, p.isAvailable)
  {
    var plan := SubmitPlan(Some(p), v);
    UpdateWritesAsSent(s, p.id, plan[0].update, availableRule);
  }

  /** Two edits leave a lot with free slots switched off: the first sets 0 of
      10 free and flips the switch off, the second sets 5 free and leaves the
      switch alone, so its PUT keeps the stale `false`. */
  lemma LeftAloneSwitchCanContradictCounts(s: Store, p: Parking, availableRule: UpdateBody -> bool, newId: Id)
    requires WellFormed(s)
    requires p.id in s && s[p.id] == p
    requires p.totalSlots == 10 && p.availableSlots == 10 && p.isAvailable
    requires 1 <= |p.name| <= ParkingForm.MaxNameLength
    requires forall u :: availableRule(u)
    ensures var o1 := RunPlan(s, SubmitPlan(Some(p), ParkingForm.FormValues(p.name, 10, 0, false)), newId, availableRule);
            && p.id in o1.store
            && o1.store[p.id] == Parking(p.id, p.name, 10, 0, false)
            && var o2 := RunPlan(o1.store, SubmitPlan(Some(o1.store[p.id]), ParkingForm.FormValues(p.name, 10, 5, false)), newId, availableRule);
               && |o2.responses| == 1 && o2.responses[0].status == OK
               && p.id in o2.store
               && o2.store[p.id] == Parking(p.id, p.name, 10, 5, false)
  {
    var v1 := ParkingForm.FormValues(p.name, 10, 0, false);
    assert ParkingForm.Accepts(v1);
    EditedFlagIsRederived(s, p, v1, availableRule, newId);
    var o1 := RunPlan(s, SubmitPlan(Some(p), v1), newId, availableRule);
    var v2 := ParkingForm.FormValues(p.name, 10, 5, false);
    EditWithoutSwitchKeepsFlag(o1.store, o1.store[p.id], v2, availableRule, newId);
  }

  /** Creating from an accepted dialog succeeds exactly when the name is not
      blank after trimming and no other record has it; the record's flag is
      then derived from the counts, not taken from the switch. */
  lemma CreateFromDialog(s: Store, v: ParkingForm.FormValues, availableRule: UpdateBody -> bool, newId: Id)
    requires ParkingForm.Accepts(v)
    requires newId !in s
    ensures var o := RunPlan(s, SubmitPlan(None, v), newId, availableRule);
            && |o.responses| == 1
            && (o.responses[0].status == CREATED <==>
                  !Text.AllWhitespace(v.parkingName) && !NameTaken(s, Text.Trim(v.parkingName), newId))
            && (o.responses[0].status == CREATED ==>
                  newId in o.store && o.store[newId] == Parking(newId, Text.Trim(v.parkingName), v.totalSlots, v.availableSlots, v.availableSlots > 0))
            && (Text.AllWhitespace(v.parkingName) ==> o.responses[0].status == SERVER_ERROR)
  {
    var b := CreateBody(Some(v.parkingName), Some(v.totalSlots), Some(v.availableSlots), None);
    var plan := SubmitPlan(None, v);
    assert plan == [PostParking(b)];
    var h := CreateParking(s, newId, b);
    assert RunPlan(s, plan, newId, availableRule) == Outcome([h.response], h.store) by {
      assert plan[1..] == [];
    }
    CreateSucceedsIff(s, newId, b);
    if h.response.status == CREATED {
      assert h.store == s[newId := h.response.data.value];
    }
    if Text.AllWhitespace(v.parkingName) {
      CreateInvalidIsServerError(s, newId, b);
    }
  }
}

=== FILE: parking_card.dfy ===
/** The status badge and occupancy line of one card in
    parking-spot-manager/src/components/parking/ParkingCard.tsx.
 */
module ParkingCard {
  import opened Types

  datatype StatusColor = Destructive | Warning | Success

  /** For a positive total, `((total - available) / total) * 100 >= 80` over
      the reals is the integer comparison `5 * available <= total`. */
  lemma PercentThreshold(total: int, available: int)
    requires total > 0
    ensures ((total - available) as real / total as real) * 100.0 >= 80.0 <==> 5 * available <= total
  {
    var x := (total - available) as real;
    var t := total as real;
    var q := x / t;
    assert q * t == x;
    assert q * 100.0 >= 80.0 <==> q * 100.0 * t >= 80.0 * t;
    assert q * 100.0 * t == x * 100.0;
  }

  /** `occupancyPercent >= 80`, where `occupancyPercent` is
      `((total - available) / total) * 100` evaluated exactly. For a positive
      total this is `(total - available) * 100 >= 80 * total`, that is
      `5 * available <= total`. For a total of 0 JavaScript divides by zero:
      a positive numerator gives +Infinity (at least 80), a zero one NaN and a
      negative one -Infinity (neither). */
  function OccupancyAtLeast80(total: int, available: int): (r: bool)
    ensures total > 0 ==> (r <==> (total - available) * 100 >= 80 * total)
    ensures total > 0 ==> (r <==> 5 * available <= total)
    ensures total == 0 ==> (r <==> available < 0)
  {
    if total == 0 then total - available > 0
    else
      var r := ((total - available) as real / total as real) * 100.0 >= 80.0;
      assert total > 0 ==> (r <==> 5 * available <= total) by {
        if total > 0 {
          PercentThreshold(total, available);
        }
      }
      r
  }

  predicate ShownFull(p: Parking) {
    !p.isAvailable || p.availableSlots == 0
  }

  /** `getStatusColor`: destructive exactly for a lot shown as Full, whatever
      its counts; otherwise, for a positive total, warning exactly when at
      most a fifth of the slots are free. */
  function GetStatusColor(p: Parking): (c: StatusColor)
    ensures c == Destructive <==> ShownFull(p)
    ensures !ShownFull(p) && p.totalSlots > 0 ==> (c == Warning <==> 5 * p.availableSlots <= p.totalSlots)
  {
    if !p.isAvailable || p.availableSlots == 0 then Destructive
    else if OccupancyAtLeast80(p.totalSlots, p.availableSlots) then Warning
    else Success
  }

  /** `getStatusText`: one of the three badge texts, "Full" exactly for a lot
      shown as Full. */
  function GetStatusText(p: Parking): (text: string)
    ensures text == "Full" <==> ShownFull(p)
    ensures text in {"Full", "Almost Full", "Available"}
  {
    if !p.isAvailable || p.availableSlots == 0 then "Full"
    else if OccupancyAtLeast80(p.totalSlots, p.availableSlots) then "Almost Full"
    else "Available"
  }

  /** The badge text that goes with each colour. */
  function TextFor(c: StatusColor): string {
    match c
    case Destructive => "Full"
    case Warning => "Almost Full"
    case Success => "Available"
  }

  /** The two status functions always agree, and the pairing is one-to-one. */
  lemma TextMatchesColor(p: Parking)
    ensures GetStatusText(p) == TextFor(GetStatusColor(p))
    ensures forall c, d :: TextFor(c) == TextFor(d) ==> c == d
  {
  }

  /** A valid record (`0 <= available <= total`) is classified as: Full
      exactly when its flag is off or no slot is free; otherwise Almost Full
      exactly when at most a fifth of its slots are free; otherwise
      Available. */
  lemma StatusOfValidRecord(p: Parking)
    requires 0 <= p.availableSlots <= p.totalSlots
    ensures GetStatusColor(p) == Destructive <==> ShownFull(p)
    ensures GetStatusColor(p) == Warning <==> !ShownFull(p) && 5 * p.availableSlots <= p.totalSlots
    ensures GetStatusColor(p) == Success <==> !ShownFull(p) && 5 * p.availableSlots > p.totalSlots
  {
  }

  /** On a valid record the percentage is only consulted when the total is
      positive, so the division is always defined where it matters. */
  lemma PercentDefinedWhereUsed(p: Parking)
    requires 0 <= p.availableSlots <= p.totalSlots
    requires !ShownFull(p)
    ensures p.totalSlots > 0
  {
  }

  /** The occupied count shown as `total - available` of `total`. */
  function OccupiedCount(p: Parking): (n: int)
    ensures n + p.availableSlots == p.totalSlots
    ensures 0 <= p.availableSlots <= p.totalSlots ==> 0 <= n <= p.totalSlots
  {
    p.totalSlots - p.availableSlots
  }
}

=== FILE: parking_controller.dfy ===
/** The request handlers of backend/controllers/parkingController.js as pure
    functions from a store and a request to a response and the next store.
    Route table (backend/routes/parkingRoutes.js):
      GET    /api/parkings                  GetAllParkings
      GET    /api/parkings/:id              GetParkingById
      POST   /api/parkings                  CreateParking
      PUT    /api/parkings/:id              UpdateParking
      DELETE /api/parkings/:id              DeleteParking
      PATCH  /api/parkings/:id/availability UpdateAvailability
 */
module ParkingController {
  import opened Types
  import Text
  import opened ParkingModel

  const OK := 200
  const CREATED := 201
  const BAD_REQUEST := 400
  const NOT_FOUND := 404
  const SERVER_ERROR := 500

  const MsgNotFound := "Parking not found"
  const MsgMissingFields := "Please provide parkingName, totalSlots, and availableSlots"
  const MsgCreated := "Parking created successfully"
  const MsgDuplicateName := "Parking with this name already exists"
  const MsgServerError := "Server Error"
  const MsgUpdated := "Parking updated successfully"
  const MsgDeleted := "Parking deleted successfully"
  const MsgExceeds := "Available slots cannot exceed total slots"
  const MsgAvailabilityUpdated := "Availability updated successfully"

  /** The JSON envelope: status code, optional message, optional record.
      `success` is `status < 400` and is not stored separately. */
  datatype Response = Response(status: int, message: Option<string>, data: Option<Parking>)

  /** What a handler returns: the response and the store after the request. */
  datatype Handled = Handled(response: Response, store: Store)

  function Fail(s: Store, status: int, message: string): Handled {
    Handled(Response(status, Some(message), None), s)
  }

  // ---------------------------------------------------------------------------
  // GET /api/parkings and GET /api/parkings/:id

  /** The list envelope: status, `count` and the records. */
  datatype ListResponse = ListResponse(status: int, count: int, data: seq<Parking>)

  /** `found` lists the records under `seen`, each once. */
  ghost predicate Lists(s: Store, found: seq<Parking>, seen: set<Id>) {
    && seen <= s.Keys
    && |found| == |seen|
    && (forall id | id in seen :: s[id] in found)
    && (forall i | 0 <= i < |found| :: found[i].id in seen && s[found[i].id] == found[i])
    && (forall i, j | 0 <= i < j < |found| :: found[i].id != found[j].id)
  }

  lemma ListsStep(s: Store, found: seq<Parking>, seen: set<Id>, k: Id)
    requires KeysMatch(s)
    requires Lists(s, found, seen)
    requires k in s && k !in seen
    ensures Lists(s, found + [s[k]], seen + {k})
  {
    var found' := found + [s[k]];
    assert |seen + {k}| == |seen| + 1;
    assert forall i | 0 <= i < |found| :: found'[i] == found[i];
    assert found'[|found|] == s[k];
  }

  /** `Parking.find()`: every stored record exactly once, in the store's order
      (which the model leaves open). */
  method GetAllParkings(s: Store) returns (r: ListResponse)
    requires KeysMatch(s)
    ensures r.status == OK && r.count == |r.data| == |s|
    ensures forall id | id in s :: s[id] in r.data
    ensures forall i | 0 <= i < |r.data| :: r.data[i].id in s && s[r.data[i].id] == r.data[i]
    ensures forall i, j | 0 <= i < j < |r.data| :: r.data[i].id != r.data[j].id
  {
    var rest := s.Keys;
    var found: seq<Parking> := [];
    ghost var seen: set<Id> := {};
    while rest != {}
      invariant rest !! seen && rest + seen == s.Keys
      invariant Lists(s, found, seen)
      decreases |rest|
    {
      var k :| k in rest;
      ListsStep(s, found, seen, k);
      found := found + [s[k]];
      rest := rest - {k};
      seen := seen + {k};
    }
    assert seen == s.Keys;
    r := ListResponse(OK, |found|, found);
  }

  /** `Parking.findById`: the record under `id`, or 404. Reads never write. */
  function GetParkingById(s: Store, id: Id): (h: Handled)
    ensures h.store == s
    ensures h.response.status == OK <==> id in s
    ensures id in s ==> h.response.data == Some(s[id])
    ensures id !in s ==> h.response == Response(NOT_FOUND, Some(MsgNotFound), None)
  {
    if id in s then Handled(Response(OK, None, Some(s[id])), s)
    else Fail(s, NOT_FOUND, MsgNotFound)
  }

  // ---------------------------------------------------------------------------
  // POST /api/parkings

  /** The controller's presence check: `!parkingName` (so `""` too) or an
      undefined slot field. */
  predicate MissingCreateField(b: CreateBody) {
    || b.parkingName.None?
    || b.parkingName.value == ""
    || b.totalSlots.None?
    || b.availableSlots.None?
  }

  /** `createParking`: after the presence check only name, totalSlots and
      availableSlots reach `Parking.create`. A duplicate name (Mongo error
      11000) is a 400; every other failure, validation included, is a 500.
      `newId` is the identifier the store assigns; one already in use trips
      the `_id` index, which is also error 11000. */
  function CreateParking(s: Store, newId: Id, b: CreateBody): (h: Handled)
    ensures h.response.status in {CREATED, BAD_REQUEST, SERVER_ERROR}
    ensures h.response.status != CREATED ==> h.store == s && h.response.data == None
    ensures h.response.status == CREATED ==>
              && !MissingCreateField(b)
              && newId !in s
              && h.response.data.Some?
              && h.store == s[newId := h.response.data.value]
  {
    if MissingCreateField(b) then Fail(s, BAD_REQUEST, MsgMissingFields)
    else
      var doc := NewDocument(newId, b.parkingName.value, b.totalSlots.value, b.availableSlots.value);
      match Save(s, doc, true)
      case Saved(d, s') => Handled(Response(CREATED, Some(MsgCreated), Some(d)), s')
      case SaveFailed(DuplicateKey) => Fail(s, BAD_REQUEST, MsgDuplicateName)
      case SaveFailed(Invalid(_)) => Fail(s, SERVER_ERROR, MsgServerError)
  }

  /** A falsy name or an undefined slot count is refused with 400 before the
      store is touched. */
  lemma CreateMissingField(s: Store, newId: Id, b: CreateBody)
    requires MissingCreateField(b)
    ensures CreateParking(s, newId, b) == Handled(Response(BAD_REQUEST, Some(MsgMissingFields), None), s)
  {
  }

  /** The `isAvailable` of a create body never matters. */
  lemma CreateIgnoresFlag(s: Store, newId: Id, b: CreateBody, flag: Option<bool>)
    ensures CreateParking(s, newId, b.(isAvailable := flag)) == CreateParking(s, newId, b)
  {
  }

  /** Create succeeds exactly when the fields are present, the trimmed name is
      non-empty and not in use, and `0 <= availableSlots <= totalSlots`; the new
      record then has the trimmed name, the given counts, and
      `isAvailable == (availableSlots > 0)` in place of the schema default. */
  lemma CreateSucceedsIff(s: Store, newId: Id, b: CreateBody)
    ensures CreateParking(s, newId, b).response.status == CREATED <==>
              && !MissingCreateField(b)
              && !Text.AllWhitespace(b.parkingName.value)
              && 0 <= b.totalSlots.value
              && 0 <= b.availableSlots.value <= b.totalSlots.value
              && newId !in s
              && !NameTaken(s, Text.Trim(b.parkingName.value), newId)
    ensures CreateParking(s, newId, b).response.status == CREATED ==>
              CreateParking(s, newId, b).response.data ==
                Some(Parking(newId, Text.Trim(b.parkingName.value), b.totalSlots.value,
                             b.availableSlots.value, b.availableSlots.value > 0))
  {
    if !MissingCreateField(b) {
      NewDocumentValidIff(newId, b.parkingName.value, b.totalSlots.value, b.availableSlots.value);
    }
  }

  /** A lot created with no free slot is stored as unavailable. */
  lemma CreateWithNoFreeSlot(s: Store, newId: Id, b: CreateBody)
    requires CreateParking(s, newId, b).response.status == CREATED
    requires b.availableSlots == Some(0)
    ensures !CreateParking(s, newId, b).store[newId].isAvailable
  {
    CreateSucceedsIff(s, newId, b);
  }

  /** A present, valid request whose trimmed name (or identifier) is in use
      gets 400 and the duplicate-name message; the store is unchanged. */
  lemma CreateDuplicateName(s: Store, newId: Id, b: CreateBody)
    requires !MissingCreateField(b)
    requires 0 <= b.availableSlots.value <= b.totalSlots.value
    requires !Text.AllWhitespace(b.parkingName.value)
    requires newId in s || NameTaken(s, Text.Trim(b.parkingName.value), newId)
    ensures CreateParking(s, newId, b) == Handled(Response(BAD_REQUEST, Some(MsgDuplicateName), None), s)
  {
    NewDocumentValidIff(newId, b.parkingName.value, b.totalSlots.value, b.availableSlots.value);
  }

  /** A present request that breaks a schema rule (more free than total
      slots, a negative count, or a name of only whitespace) falls into the
      generic catch: 500, store unchanged. Validation runs before the unique
      index, so this holds even when the name is also taken. */
  lemma CreateInvalidIsServerError(s: Store, newId: Id, b: CreateBody)
    requires !MissingCreateField(b)
    requires || Text.AllWhitespace(b.parkingName.value)
             || b.totalSlots.value < 0
             || b.availableSlots.value < 0
             || b.availableSlots.value > b.totalSlots.value
    ensures CreateParking(s, newId, b) == Handled(Response(SERVER_ERROR, Some(MsgServerError), None), s)
  {
    NewDocumentValidIff(newId, b.parkingName.value, b.totalSlots.value, b.availableSlots.value);
  }

  lemma CreatePreservesInvariants(s: Store, newId: Id, b: CreateBody)
    requires WellFormed(s)
    ensures WellFormed(CreateParking(s, newId, b).store)
    ensures Consistent(s) ==> Consistent(CreateParking(s, newId, b).store)
  {
    if !MissingCreateField(b) {
      var doc := NewDocument(newId, b.parkingName.value, b.totalSlots.value, b.availableSlots.value);
      var r := Save(s, doc, true);
      if r.Saved? {
        assert CreateParking(s, newId, b).store == r.store;
        SavePreservesWellFormed(s, doc, true);
        if Consistent(s) {
          SavePreservesConsistent(s, doc, true);
        }
      } else {
        assert CreateParking(s, newId, b).store == s;
      }
    }
  }

  // ---------------------------------------------------------------------------
  // PUT /api/parkings/:id

  /** `const { parkingName, ...updateData } = req.body`. */
  function StripName(b: UpdateBody): (u: UpdateBody)
    ensures u.parkingName.None?
    ensures u.(parkingName := b.parkingName) == b
  {
    b.(parkingName := None)
  }

  /** The update validators `runValidators` runs on the paths present in the
      update: `min: 0` on each slot count, and the custom `availableSlots`
      validator, whose `this` is not the stored document under
      `findByIdAndUpdate`; its outcome is the abstract `availableRule`. */
  predicate UpdateValidatorsPass(u: UpdateBody, availableRule: UpdateBody -> bool) {
    && (u.totalSlots.Some? ==> u.totalSlots.value >= 0)
    && (u.availableSlots.Some? ==> u.availableSlots.value >= 0 && availableRule(u))
  }

  /** `$set` of the present fields; the pre-save hook does not run. Each
      field the update carries is written as sent, each it leaves out keeps
      its stored value, and the identifier and name never change. */
  function ApplyUpdate(p: Parking, u: UpdateBody): (r: Parking)
    ensures r.id == p.id && r.name == p.name
    ensures u.totalSlots.Some? ==> r.totalSlots == u.totalSlots.value
    ensures u.totalSlots.None? ==> r.totalSlots == p.totalSlots
    ensures u.availableSlots.Some? ==> r.availableSlots == u.availableSlots.value
    ensures u.availableSlots.None? ==> r.availableSlots == p.availableSlots
    ensures u.isAvailable.Some? ==> r.isAvailable == u.isAvailable.value
    ensures u.isAvailable.None? ==> r.isAvailable == p.isAvailable
  {
    p.(totalSlots := u.totalSlots.GetOr(p.totalSlots),
       availableSlots := u.availableSlots.GetOr(p.availableSlots),
       isAvailable := u.isAvailable.GetOr(p.isAvailable))
  }

  /** `updateParking`: the validators run before the query, so an invalid
      body is a 500 even for an unknown id; then a missing id is a 404;
      otherwise the present fields are written as sent. */
  function UpdateParking(s: Store, id: Id, b: UpdateBody, availableRule: UpdateBody -> bool): (h: Handled)
    ensures h.response.status in {OK, NOT_FOUND, SERVER_ERROR}
    ensures h.response.status != OK ==> h.store == s && h.response.data == None
    ensures h.response.status == OK <==> id in s && UpdateValidatorsPass(StripName(b), availableRule)
    ensures !UpdateValidatorsPass(StripName(b), availableRule) ==> h.response.status == SERVER_ERROR
    ensures h.response.status == OK ==>
              && h.store.Keys == s.Keys
              && h.response.data == Some(h.store[id])
              && (forall j | j in s && j != id :: h.store[j] == s[j])
              && h.store[id].id == s[id].id
              && h.store[id].name == s[id].name
  {
    var u := StripName(b);
    if !UpdateValidatorsPass(u, availableRule) then Fail(s, SERVER_ERROR, MsgServerError)
    else if id !in s then Fail(s, NOT_FOUND, MsgNotFound)
    else
      var p := ApplyUpdate(s[id], u);
      Handled(Response(OK, Some(MsgUpdated), Some(p)), s[id := p])
  }

  /** An unknown id with a body the validators accept gets 404; the store is
      unchanged. */
  lemma UpdateMissingId(s: Store, id: Id, b: UpdateBody, availableRule: UpdateBody -> bool)
    requires id !in s
    requires UpdateValidatorsPass(StripName(b), availableRule)
    ensures UpdateParking(s, id, b, availableRule) == Fail(s, NOT_FOUND, MsgNotFound)
  {
  }

  /** A successful PUT writes the sent counts and the sent flag verbatim,
      keeping whatever was stored for the fields left out; nothing derives the
      flag on this path. */
  lemma UpdateWritesAsSent(s: Store, id: Id, b: UpdateBody, availableRule: UpdateBody -> bool)
    requires UpdateParking(s, id, b, availableRule).response.status == OK
    ensures UpdateParking(s, id, b, availableRule).store[id] ==
              Parking(s[id].id, s[id].name,
                      b.totalSlots.GetOr(s[id].totalSlots),
                      b.availableSlots.GetOr(s[id].availableSlots),
                      b.isAvailable.GetOr(s[id].isAvailable))
  {
  }

  /** The flag goes stale through PUT: a lot with all 10 slots free and the
      flag set, updated to 0 free slots, is stored with `isAvailable` still
      true, whichever way the custom validator decides. */
  lemma UpdateLeavesFlagStale(availableRule: UpdateBody -> bool)
    requires availableRule(UpdateBody(None, None, Some(0), None))
    ensures var s := map["a" := Parking("a", "Lot A", 10, 10, true)];
            var h := UpdateParking(s, "a", UpdateBody(None, None, Some(0), None), availableRule);
            && h.response.status == OK
            && h.store["a"].availableSlots == 0
            && h.store["a"].isAvailable
  {
  }

  lemma UpdatePreservesWellFormed(s: Store, id: Id, b: UpdateBody, availableRule: UpdateBody -> bool)
    requires WellFormed(s)
    ensures WellFormed(UpdateParking(s, id, b, availableRule).store)
  {
    var h := UpdateParking(s, id, b, availableRule);
    if h.response.status == OK {
      var s' := h.store;
      forall i, j | i in s' && j in s' && s'[i].name == s'[j].name
        ensures i == j
      {
        assert s'[i].name == s[i].name && s'[j].name == s[j].name;
      }
    }
  }

  // ---------------------------------------------------------------------------
  // DELETE /api/parkings/:id

  /** `deleteParking`: 404 for an unknown id; otherwise exactly that record
      goes and every other one stays as it was. */
  function DeleteParking(s: Store, id: Id): (h: Handled)
    ensures h.response.status in {OK, NOT_FOUND}
    ensures h.response.status == OK <==> id in s
    ensures id !in s ==> h == Fail(s, NOT_FOUND, MsgNotFound)
    ensures h.store.Keys == s.Keys - {id}
    ensures forall j | j in h.store :: h.store[j] == s[j]
  {
    if id !in s then Fail(s, NOT_FOUND, MsgNotFound)
    else Handled(Response(OK, Some(MsgDeleted), None), s - {id})
  }

  lemma DeletePreservesInvariants(s: Store, id: Id)
    requires WellFormed(s)
    ensures WellFormed(DeleteParking(s, id).store)
    ensures Consistent(s) ==> Consistent(DeleteParking(s, id).store)
  {
  }

  // ---------------------------------------------------------------------------
  // PATCH /api/parkings/:id/availability

  /** The document after the controller's assignments and before `save()`:
      the sent count and flag, where sent, over the stored record. */
  function PatchDocument(p: Parking, b: AvailabilityBody): (r: Parking)
    ensures r.id == p.id && r.name == p.name && r.totalSlots == p.totalSlots
    ensures r.availableSlots == b.availableSlots.GetOr(p.availableSlots)
    ensures r.isAvailable == b.isAvailable.GetOr(p.isAvailable)
  {
    var withSlots := if b.availableSlots.Some? then p.(availableSlots := b.availableSlots.value) else p;
    if b.isAvailable.Some? then withSlots.(isAvailable := b.isAvailable.value) else withSlots
  }

  /** `updateAvailability`: 404 for an unknown id; 400 when the sent
      availableSlots exceeds the stored totalSlots; otherwise the sent fields
      are assigned and the document is saved, so the pre-save hook re-derives
      the flag. A failed save is a 500. */
  function UpdateAvailability(s: Store, id: Id, b: AvailabilityBody): (h: Handled)
    ensures h.response.status in {OK, BAD_REQUEST, NOT_FOUND, SERVER_ERROR}
    ensures h.response.status != OK ==> h.store == s && h.response.data == None
    ensures h.response.status == NOT_FOUND <==> id !in s
    ensures h.response.status == BAD_REQUEST <==>
              id in s && b.availableSlots.Some? && b.availableSlots.value > s[id].totalSlots
    ensures h.response.status == OK ==>
              && h.store.Keys == s.Keys
              && h.response.data == Some(h.store[id])
              && (forall j | j in s && j != id :: h.store[j] == s[j])
              && h.store[id].id == s[id].id
              && h.store[id].name == s[id].name
              && h.store[id].totalSlots == s[id].totalSlots
              && h.store[id].availableSlots == b.availableSlots.GetOr(s[id].availableSlots)
              && (h.store[id].isAvailable <==> h.store[id].availableSlots > 0)
              && SchemaValid(h.store[id])
  {
    if id !in s then Fail(s, NOT_FOUND, MsgNotFound)
    else
      var p := s[id];
      if b.availableSlots.Some? && b.availableSlots.value > p.totalSlots then
        Fail(s, BAD_REQUEST, MsgExceeds)
      else
        match Save(s, PatchDocument(p, b), false)
        case Saved(d, s') => Handled(Response(OK, Some(MsgAvailabilityUpdated), Some(d)), s')
        case SaveFailed(_) => Fail(s, SERVER_ERROR, MsgServerError)
  }

  /** The `isAvailable` of a PATCH body never matters: the whole outcome is
      the same whatever flag is sent, or none. */
  lemma PatchIgnoresFlag(s: Store, id: Id, b: AvailabilityBody, flag: Option<bool>)
    ensures UpdateAvailability(s, id, b.(isAvailable := flag)) == UpdateAvailability(s, id, b)
  {
    if id in s {
      var p := s[id];
      var withSlots := if b.availableSlots.Some? then p.(availableSlots := b.availableSlots.value) else p;
      SaveIgnoresFlag(s, withSlots, false, PatchDocument(p, b.(isAvailable := flag)).isAvailable);
      SaveIgnoresFlag(s, withSlots, false, PatchDocument(p, b).isAvailable);
    }
  }

  /** A PATCH carrying only `isAvailable` on a well-formed store succeeds
      exactly when the stored counts are valid, and then sets the flag to
      `availableSlots > 0`, not to the value sent. */
  lemma FlagOnlyPatch(s: Store, id: Id, flag: bool)
    requires WellFormed(s) && id in s
    ensures var h := UpdateAvailability(s, id, AvailabilityBody(None, Some(flag)));
            && (h.response.status == OK <==> s[id].availableSlots <= s[id].totalSlots)
            && (h.response.status == OK ==> (h.store[id].isAvailable <==> s[id].availableSlots > 0))
            && (h.response.status != OK ==> h.response.status == SERVER_ERROR)
  {
    var d := PatchDocument(s[id], AvailabilityBody(None, Some(flag)));
    assert !NameTaken(s, d.name, d.id);
  }

  /** When a PATCH reaches the save on a well-formed store: it gets 200
      exactly when the resulting count lies in `[0, totalSlots]`, and 500
      exactly when that fails without tripping the controller's own 400
      check (a negative count sent, or a stored count above the total kept). */
  lemma PatchSucceedsIff(s: Store, id: Id, b: AvailabilityBody)
    requires WellFormed(s) && id in s
    ensures var h := UpdateAvailability(s, id, b);
            var slots := b.availableSlots.GetOr(s[id].availableSlots);
            && (h.response.status == OK <==> 0 <= slots <= s[id].totalSlots)
            && (h.response.status == SERVER_ERROR <==>
                  !(0 <= slots <= s[id].totalSlots)
                  && !(b.availableSlots.Some? && b.availableSlots.value > s[id].totalSlots))
  {
    var d := PatchDocument(s[id], b);
    assert !NameTaken(s, d.name, d.id);
  }

  /** A PATCH that sends a negative availableSlots passes the controller's own
      check and is refused by the schema: 500, store unchanged. */
  lemma PatchNegativeIsServerError(s: Store, id: Id, b: AvailabilityBody)
    requires WellFormed(s) && id in s
    requires b.availableSlots.Some? && b.availableSlots.value < 0
    ensures UpdateAvailability(s, id, b) == Fail(s, SERVER_ERROR, MsgServerError)
  {
  }

  lemma PatchPreservesInvariants(s: Store, id: Id, b: AvailabilityBody)
    requires WellFormed(s)
    ensures WellFormed(UpdateAvailability(s, id, b).store)
    ensures Consistent(s) ==> Consistent(UpdateAvailability(s, id, b).store)
  {
    if id in s {
      var p := s[id];
      if !(b.availableSlots.Some? && b.availableSlots.value > p.totalSlots) {
        var d := PatchDocument(p, b);
        if Save(s, d, false).Saved? {
          SavePreservesWellFormed(s, d, false);
          if Consistent(s) {
            SavePreservesConsistent(s, d, false);
          }
        }
      }
    }
  }

  /** The lifecycle of one lot: created with 10 of 10 free it is available;
      patched to 0 free it becomes unavailable; a flag-only patch asking for
      available leaves it unavailable, because the hook overrides the flag. */
  lemma LotLifecycle(id: Id, name: string)
    requires name != [] && Text.IsTrimmed(name)
    ensures var h1 := CreateParking(map[], id, CreateBody(Some(name), Some(10), Some(10), None));
            var h2 := UpdateAvailability(h1.store, id, AvailabilityBody(Some(0), None));
            var h3 := UpdateAvailability(h2.store, id, AvailabilityBody(None, Some(true)));
            && h1.response.status == CREATED && h1.store[id].isAvailable
            && h2.response.status == OK && !h2.store[id].isAvailable
            && h3.response.status == OK && !h3.store[id].isAvailable
            && h3.store[id].availableSlots == 0
  {
    var b := CreateBody(Some(name), Some(10), Some(10), None);
    assert !Text.AllWhitespace(name) by { assert !Text.IsJsWhitespace(name[0]); }
    Text.TrimFixesTrimmed(name);
    CreateSucceedsIff(map[], id, b);
    var lot := Parking(id, name, 10, 10, true);
    var s1 := map[id := lot];
    assert CreateParking(map[], id, b).store == s1;
    var s2 := map[id := lot.(availableSlots := 0, isAvailable := false)];
    assert !NameTaken(s1, name, id);
    assert UpdateAvailability(s1, id, AvailabilityBody(Some(0), None)).store == s2;
    assert !NameTaken(s2, name, id);
    assert UpdateAvailability(s2, id, AvailabilityBody(None, Some(true))).store == s2;
  }
}

=== FILE: parking_form.dfy ===
/** The create/edit dialog of
    parking-spot-manager/src/components/parking/ParkingFormDialog.tsx: the
    zod schema with its cross-field refinement, the default values, and the
    arithmetic of the four stepper buttons. `z.coerce.number` values are
    modelled as integers.
 */
module ParkingForm {

  datatype FormValues = FormValues(
    parkingName: string,
    totalSlots: int,
    availableSlots: int,
    isAvailable: bool)

  datatype FieldPath = ParkingNamePath | TotalSlotsPath | AvailableSlotsPath

  const MaxNameLength := 100

  /** One check of the schema. A failed check is reported as a zod issue
      carrying the check's field path and message. */
  datatype Rule =
    | NameRequired
    | NameTooLong
    | TotalTooSmall
    | AvailableNegative
    | AvailableExceedsTotal
  {
    function Path(): FieldPath {
      match this
      case NameRequired | NameTooLong => ParkingNamePath
      case TotalTooSmall => TotalSlotsPath
      case AvailableNegative | AvailableExceedsTotal => AvailableSlotsPath
    }

    function Message(): string {
      match this
      case NameRequired => "Parking name is required"
      case NameTooLong => "String must contain at most 100 character(s)"
      case TotalTooSmall => "Must have at least 1 slot"
      case AvailableNegative => "Cannot be negative"
      case AvailableExceedsTotal => "Available slots cannot exceed total slots"
    }
  }

  function Check(ok: bool, rule: Rule): seq<Rule> {
    if ok then [] else [rule]
  }

  /** The checks whose issues `parkingSchema.safeParse` reports, in order: the
      field checks in declaration order, then the refinement. The field
      checks are non-fatal, so the refinement runs even when one of them
      failed. Each field check is reported exactly when it fails, and the
      refinement, when reported, comes last. */
  function Issues(v: FormValues): (r: seq<Rule>)
    ensures NameRequired in r <==> |v.parkingName| < 1
    ensures NameTooLong in r <==> |v.parkingName| > MaxNameLength
    ensures TotalTooSmall in r <==> v.totalSlots < 1
    ensures AvailableNegative in r <==> v.availableSlots < 0
    ensures AvailableExceedsTotal in r ==> r[|r| - 1] == AvailableExceedsTotal
    ensures |r| <= 5
  {
    Check(|v.parkingName| >= 1, NameRequired)
    + Check(|v.parkingName| <= MaxNameLength, NameTooLong)
    + Check(v.totalSlots >= 1, TotalTooSmall)
    + Check(v.availableSlots >= 0, AvailableNegative)
    + Check(v.availableSlots <= v.totalSlots, AvailableExceedsTotal)
  }

  /** The form submits exactly when the name has 1 to 100 characters, there
      is at least one slot, and `0 <= availableSlots <= totalSlots`. */
  function Accepts(v: FormValues): (ok: bool)
    ensures ok <==>
              && 1 <= |v.parkingName| <= MaxNameLength
              && v.totalSlots >= 1
              && 0 <= v.availableSlots <= v.totalSlots
  {
    Issues(v) == []
  }

  /** More free than total slots is reported on the availableSlots field with
      the refinement's message, whatever else is wrong with the values. */
  lemma ExceedsReportedOnAvailable(v: FormValues)
    ensures AvailableExceedsTotal in Issues(v) <==> v.availableSlots > v.totalSlots
    ensures AvailableExceedsTotal.Path() == AvailableSlotsPath
    ensures AvailableExceedsTotal.Message() == "Available slots cannot exceed total slots"
  {
  }

  /** The create dialog's defaults: no name, 100 of 100 slots free. */
  const CreateDefaults := FormValues("", 100, 100, true)

  /** The defaults satisfy every rule but the name: the only issue is the
      empty name, and any 1 to 100 character name makes them acceptable. */
  lemma DefaultsNeedOnlyAName(name: string)
    ensures Issues(CreateDefaults) == [NameRequired]
    ensures NameRequired.Path() == ParkingNamePath && NameRequired.Message() == "Parking name is required"
    ensures 1 <= |name| <= MaxNameLength ==> Accepts(CreateDefaults.(parkingName := name))
  {
  }

  // ---------------------------------------------------------------------------
  // Stepper buttons

  /** The total-slots minus button: `Math.max(1, value - 1)`. */
  function DecrementTotal(v: int): (r: int)
    ensures r >= 1
    ensures r >= v - 1
    ensures r == 1 || r == v - 1
  {
    if v - 1 > 1 then v - 1 else 1
  }

  /** The available-slots minus button: `Math.max(0, value - 1)`. */
  function DecrementAvailable(v: int): (r: int)
    ensures r >= 0
    ensures r >= v - 1
    ensures r == 0 || r == v - 1
  {
    if v - 1 > 0 then v - 1 else 0
  }

  /** Both plus buttons: `value + 1`, with no upper bound. */
  function Increment(v: int): (r: int)
    ensures r > v
    ensures r - 1 == v
  {
    v + 1
  }

  /** Minus undoes plus on every value the field rule admits, and plus undoes
      minus above the floor; at the floor minus does nothing. */
  lemma StepperRoundTrips(v: int)
    ensures v >= 1 ==> DecrementTotal(Increment(v)) == v
    ensures v >= 2 ==> Increment(DecrementTotal(v)) == v
    ensures DecrementTotal(1) == 1
    ensures v >= 0 ==> DecrementAvailable(Increment(v)) == v
    ensures v >= 1 ==> Increment(DecrementAvailable(v)) == v
    ensures DecrementAvailable(0) == 0
  {
  }

  /** The minus buttons never create an issue on their own field, and the
      available-slots minus never creates the refinement issue. */
  lemma DecrementsKeepFieldRules(v: FormValues)
    requires Accepts(v)
    ensures Accepts(v.(availableSlots := DecrementAvailable(v.availableSlots)))
    ensures v.availableSlots < v.totalSlots ==> Accepts(v.(totalSlots := DecrementTotal(v.totalSlots)))
  {
  }

  /** Neither plus button is bounded by the other field: pressing the
      available-slots plus on a lot with every slot free produces values only the refinement
      rejects, and the total-slots minus does the same. */
  lemma SteppersCanBreakRefinement(v: FormValues)
    requires Accepts(v) && v.availableSlots == v.totalSlots
    ensures Issues(v.(availableSlots := Increment(v.availableSlots))) == [AvailableExceedsTotal]
    ensures v.totalSlots >= 2 ==>
              Issues(v.(totalSlots := DecrementTotal(v.totalSlots))) == [AvailableExceedsTotal]
  {
  }
}

=== FILE: parking_model.dfy ===
/** The Mongoose schema of backend/models/Parking.js: the field rules, the
    pre-save hook that derives `isAvailable`, and what `save()` does with a
    document (validate every path, run the hook, then insert or overwrite
    subject to the unique index on the name).
 */
module ParkingModel {
  import opened Types
  import Text

  /** One failed schema rule. */
  datatype Violation =
    | NameRequired            // `required` on the (already trimmed) name
    | TotalSlotsNegative      // `min: 0` on totalSlots
    | AvailableSlotsNegative  // `min: 0` on availableSlots
    | AvailableExceedsTotal   // the custom validator `value <= this.totalSlots`

  /** A new document as `new Parking({...})` casts it: the `trim` setter runs
      on the name and `isAvailable` takes its default `true`. A name that is
      already trimmed is kept as given. */
  function NewDocument(id: Id, name: string, totalSlots: int, availableSlots: int): (d: Parking)
    ensures d.id == id && d.totalSlots == totalSlots && d.availableSlots == availableSlots
    ensures d.name == Text.Trim(name)
    ensures Text.IsTrimmed(d.name)
    ensures Text.IsTrimmed(name) ==> d.name == name
    ensures d.isAvailable
  {
    Text.TrimFixesTrimmed(name);
    Parking(id, Text.Trim(name), totalSlots, availableSlots, true)
  }

  /** The rules the document breaks, one per validator: each rule is in the
      set exactly when its validator refuses the document. */
  function Violations(d: Parking): (vs: set<Violation>)
    ensures NameRequired in vs <==> d.name == []
    ensures TotalSlotsNegative in vs <==> d.totalSlots < 0
    ensures AvailableSlotsNegative in vs <==> d.availableSlots < 0
    ensures AvailableExceedsTotal in vs <==> d.availableSlots > d.totalSlots
  {
    (if d.name == [] then {NameRequired} else {})
    + (if d.totalSlots < 0 then {TotalSlotsNegative} else {})
    + (if d.availableSlots < 0 then {AvailableSlotsNegative} else {})
    + (if d.availableSlots > d.totalSlots then {AvailableExceedsTotal} else {})
  }

  /** A document passes validation exactly when its name is non-empty and
      `0 <= availableSlots <= totalSlots` (which forces `totalSlots >= 0`). */
  function SchemaValid(d: Parking): (ok: bool)
    ensures ok <==> d.name != [] && 0 <= d.totalSlots && 0 <= d.availableSlots <= d.totalSlots
  {
    Violations(d) == {}
  }

  /** A freshly cast document is valid exactly when the trimmed name is
      non-empty and the slot counts satisfy `0 <= available <= total`. */
  lemma NewDocumentValidIff(id: Id, name: string, totalSlots: int, availableSlots: int)
    ensures SchemaValid(NewDocument(id, name, totalSlots, availableSlots)) <==>
              && !Text.AllWhitespace(name)
              && 0 <= totalSlots
              && 0 <= availableSlots <= totalSlots
  {
    Text.TrimEmptyIff(name);
  }

  /** The `pre("save")` hook: `isAvailable` becomes `availableSlots > 0`,
      whatever it was, and nothing else changes. */
  function PreSave(d: Parking): (r: Parking)
    ensures r.isAvailable <==> d.availableSlots > 0
    ensures r.(isAvailable := d.isAvailable) == d
  {
    d.(isAvailable := d.availableSlots > 0)
  }

  /** Running the hook twice is running it once. */
  lemma PreSaveIdempotent(d: Parking)
    ensures PreSave(PreSave(d)) == PreSave(d)
  {
  }

  /** The hook reads only the slot fields, so two documents that differ only
      in their flag come out of it equal. */
  lemma PreSaveForgetsFlag(d: Parking, flag: bool)
    ensures PreSave(d.(isAvailable := flag)) == PreSave(d)
  {
  }

  /** The hook does not touch any validated field, so it keeps validity. */
  lemma PreSaveKeepsViolations(d: Parking)
    ensures Violations(PreSave(d)) == Violations(d)
  {
  }

  /** Some record other than `id` already uses `name` (the unique index). */
  predicate NameTaken(s: Store, name: string, id: Id) {
    exists j | j in s :: j != id && s[j].name == name
  }

  datatype SaveError = Invalid(violations: set<Violation>) | DuplicateKey

  datatype SaveResult = Saved(doc: Parking, store: Store) | SaveFailed(error: SaveError)

  /** `doc.save()`: validation runs first (every path of the document), then
      the pre-save hook, then the write, which the unique indexes refuse when
      another record has the name or, for an insert, the identifier is in
      use. On failure nothing is written. */
  function Save(s: Store, d: Parking, isNew: bool): (r: SaveResult)
    ensures r.Saved? <==> SchemaValid(d) && !(isNew && d.id in s) && !NameTaken(s, d.name, d.id)
    ensures r.Saved? ==>
              && r.store == s[d.id := r.doc]
              && r.doc.(isAvailable := d.isAvailable) == d
              && (r.doc.isAvailable <==> r.doc.availableSlots > 0)
              && SchemaValid(r.doc)
    ensures r.SaveFailed? && r.error.Invalid? <==> !SchemaValid(d)
  {
    var vs := Violations(d);
    if vs != {} then SaveFailed(Invalid(vs))
    else
      var saved := PreSave(d);
      if (isNew && saved.id in s) || NameTaken(s, saved.name, saved.id) then SaveFailed(DuplicateKey)
      else Saved(saved, s[saved.id := saved])
  }

  /** Saving depends on the document's flag not at all. */
  lemma SaveIgnoresFlag(s: Store, d: Parking, isNew: bool, flag: bool)
    ensures Save(s, d.(isAvailable := flag), isNew) == Save(s, d, isNew)
  {
    PreSaveForgetsFlag(d, flag);
  }

  // ---------------------------------------------------------------------------
  // Store invariants

  /** Every record is filed under its own identifier. */
  ghost predicate KeysMatch(s: Store) {
    forall id | id in s :: s[id].id == id
  }

  /** At most one stored record has a given name (`unique: true`). */
  ghost predicate NamesUnique(s: Store) {
    forall i, j | i in s && j in s && s[i].name == s[j].name :: i == j
  }

  /** The per-field rules every write path enforces: a trimmed non-empty
      name and non-negative slot counts. */
  ghost predicate FieldRules(p: Parking) {
    p.name != [] && Text.IsTrimmed(p.name) && p.totalSlots >= 0 && p.availableSlots >= 0
  }

  /** What every handler preserves. */
  ghost predicate WellFormed(s: Store) {
    KeysMatch(s) && NamesUnique(s) && (forall id | id in s :: FieldRules(s[id]))
  }

  /** Every record as a `save()` leaves it: valid, with its flag derived. */
  ghost predicate Derived(p: Parking) {
    SchemaValid(p) && (p.isAvailable <==> p.availableSlots > 0)
  }

  /** The stronger invariant that holds while every write went through `save()`. */
  ghost predicate Consistent(s: Store) {
    WellFormed(s) && forall id | id in s :: Derived(s[id])
  }

  /** A successful save of a document filed under its own id, whose name is
      already trimmed, keeps the store well formed. */
  lemma SavePreservesWellFormed(s: Store, d: Parking, isNew: bool)
    requires WellFormed(s)
    requires Text.IsTrimmed(d.name)
    requires Save(s, d, isNew).Saved?
    ensures WellFormed(Save(s, d, isNew).store)
  {
    var saved := PreSave(d);
    var s' := s[d.id := saved];
    assert Save(s, d, isNew).store == s';
    assert FieldRules(saved);
    assert KeysMatch(s');
    forall i, j | i in s' && j in s' && s'[i].name == s'[j].name
      ensures i == j
    {
      if i != d.id && j != d.id {
        assert s'[i] == s[i] && s'[j] == s[j];
      }
    }
  }

  /** The same, for the stronger invariant. */
  lemma SavePreservesConsistent(s: Store, d: Parking, isNew: bool)
    requires Consistent(s)
    requires Text.IsTrimmed(d.name)
    requires Save(s, d, isNew).Saved?
    ensures Consistent(Save(s, d, isNew).store)
  {
    SavePreservesWellFormed(s, d, isNew);
  }
}

=== FILE: parking_stats.dfy ===
/** The four aggregates of
    parking-spot-manager/src/components/parking/ParkingStats.tsx over the
    list of records the dashboard received.
 */
module ParkingStats {
  import opened Types
  import ParkingCard

  /** The sum of `f` over the list, head first: the reference definition the
      left-to-right `reduce` is checked against. */
  function Sum(ps: seq<Parking>, f: Parking -> int): int
    decreases |ps|
  {
    if ps == [] then 0 else f(ps[0]) + Sum(ps[1..], f)
  }

  function TotalOf(p: Parking): int { p.totalSlots }

  function AvailableOf(p: Parking): int { p.availableSlots }

  /** The filter of `availableLocations`: flag set and a slot free. */
  predicate CountsAsAvailable(p: Parking) {
    p.isAvailable && p.availableSlots > 0
  }

  function AvailableIndicator(p: Parking): int {
    if CountsAsAvailable(p) then 1 else 0
  }

  /** Sums split over concatenation, so no way of cutting the list changes them. */
  lemma {:induction false} SumAppend(a: seq<Parking>, b: seq<Parking>, f: Parking -> int)
    ensures Sum(a + b, f) == Sum(a, f) + Sum(b, f)
    decreases |a|
  {
    if a == [] {
      assert a + b == b;
    } else {
      assert (a + b)[1..] == a[1..] + b;
      SumAppend(a[1..], b, f);
    }
  }

  /** Sums respect a pointwise order between the summed functions. */
  lemma {:induction false} SumMonotone(ps: seq<Parking>, f: Parking -> int, g: Parking -> int)
    requires forall i | 0 <= i < |ps| :: f(ps[i]) <= g(ps[i])
    ensures Sum(ps, f) <= Sum(ps, g)
    decreases |ps|
  {
    if ps != [] {
      assert forall i | 0 <= i < |ps[1..]| :: ps[1..][i] == ps[i + 1];
      SumMonotone(ps[1..], f, g);
    }
  }

  /** The sum of a difference is the difference of the sums. */
  lemma {:induction false} SumDifference(ps: seq<Parking>, f: Parking -> int, g: Parking -> int, h: Parking -> int)
    requires forall i | 0 <= i < |ps| :: h(ps[i]) == f(ps[i]) - g(ps[i])
    ensures Sum(ps, h) == Sum(ps, f) - Sum(ps, g)
    decreases |ps|
  {
    if ps != [] {
      assert forall i | 0 <= i < |ps[1..]| :: ps[1..][i] == ps[i + 1];
      SumDifference(ps[1..], f, g, h);
    }
  }

  datatype Stats = Stats(
    totalLocations: int,
    totalSlots: int,
    totalAvailable: int,
    totalOccupied: int,
    availableLocations: int)

  /** The component's computation: two `reduce`s from 0, their difference,
      and the length of a `filter`, walked left to right. */
  method ComputeStats(ps: seq<Parking>) returns (st: Stats)
    ensures st.totalLocations == |ps|
    ensures st.totalSlots == Sum(ps, TotalOf)
    ensures st.totalAvailable == Sum(ps, AvailableOf)
    ensures st.totalOccupied == st.totalSlots - st.totalAvailable
    ensures st.availableLocations == Sum(ps, AvailableIndicator)
  {
    var totalSlots := 0;
    var totalAvailable := 0;
    var availableLocations := 0;
    var i := 0;
    while i < |ps|
      invariant 0 <= i <= |ps|
      invariant totalSlots == Sum(ps[..i], TotalOf)
      invariant totalAvailable == Sum(ps[..i], AvailableOf)
      invariant availableLocations == Sum(ps[..i], AvailableIndicator)
    {
      assert ps[..i + 1] == ps[..i] + [ps[i]];
      SumAppend(ps[..i], [ps[i]], TotalOf);
      SumAppend(ps[..i], [ps[i]], AvailableOf);
      SumAppend(ps[..i], [ps[i]], AvailableIndicator);
      totalSlots := totalSlots + ps[i].totalSlots;
      totalAvailable := totalAvailable + ps[i].availableSlots;
      if ps[i].isAvailable && ps[i].availableSlots > 0 {
        availableLocations := availableLocations + 1;
      }
      i := i + 1;
    }
    assert ps[..i] == ps;
    st := Stats(|ps|, totalSlots, totalAvailable, totalSlots - totalAvailable, availableLocations);
  }

  ghost predicate AllValid(ps: seq<Parking>) {
    forall i | 0 <= i < |ps| :: 0 <= ps[i].availableSlots <= ps[i].totalSlots
  }

  /** Over valid records the occupied total lies between 0 and the slot total. */
  lemma OccupiedBounds(ps: seq<Parking>)
    requires AllValid(ps)
    ensures 0 <= Sum(ps, TotalOf) - Sum(ps, AvailableOf) <= Sum(ps, TotalOf)
  {
    SumMonotone(ps, AvailableOf, TotalOf);
    SumMonotone(ps, p => 0, AvailableOf);
    assert Sum(ps, p => 0) == 0 by { SumOfZero(ps); }
  }

  lemma {:induction false} SumOfZero(ps: seq<Parking>)
    ensures Sum(ps, p => 0) == 0
    decreases |ps|
  {
    if ps != [] {
      SumOfZero(ps[1..]);
    }
  }

  /** The occupied total is the sum of the occupied counts the cards show. */
  lemma OccupiedIsSumOfCards(ps: seq<Parking>)
    ensures Sum(ps, TotalOf) - Sum(ps, AvailableOf) == Sum(ps, ParkingCard.OccupiedCount)
  {
    SumDifference(ps, TotalOf, AvailableOf, ParkingCard.OccupiedCount);
  }

  /** At most every location counts as available. */
  lemma {:induction false} AvailableLocationsBound(ps: seq<Parking>)
    ensures 0 <= Sum(ps, AvailableIndicator) <= |ps|
    decreases |ps|
  {
    if ps != [] {
      AvailableLocationsBound(ps[1..]);
    }
  }

  function NotFullIndicator(p: Parking): int {
    if ParkingCard.ShownFull(p) then 0 else 1
  }

  /** With no negative counts, a location is counted as available exactly
      when its card is not shown as Full. */
  lemma {:induction false} AvailableLocationsAreNonFullCards(ps: seq<Parking>)
    requires forall i | 0 <= i < |ps| :: ps[i].availableSlots >= 0
    ensures Sum(ps, AvailableIndicator) == Sum(ps, NotFullIndicator)
    decreases |ps|
  {
    if ps != [] {
      assert forall i | 0 <= i < |ps[1..]| :: ps[1..][i] == ps[i + 1];
      AvailableLocationsAreNonFullCards(ps[1..]);
    }
  }
}

=== FILE: text.dfy ===
/** The three JavaScript string operations the core relies on:
    `String.prototype.trim` (Mongoose's `trim: true` setter),
    `toLowerCase` and `includes` (the dashboard's name search).
 */
module Text {

  /** ECMAScript WhiteSpace and LineTerminator code points: what `trim` strips. */
  predicate IsJsWhitespace(c: char) {
    || c == '\t' || c == '\n' || c == '\U{0B}' || c == '\U{0C}' || c == '\r' || c == ' '
    || c == '\U{A0}' || c == '\U{1680}' || ('\U{2000}' <= c <= '\U{200A}')
    || c == '\U{2028}' || c == '\U{2029}' || c == '\U{202F}' || c == '\U{205F}'
    || c == '\U{3000}' || c == '\U{FEFF}'
  }

  ghost predicate AllWhitespace(s: string) {
    forall i | 0 <= i < |s| :: IsJsWhitespace(s[i])
  }

  /** Every character of `s` at positions `lo` up to `hi` is whitespace. */
  ghost predicate WhitespaceBetween(s: string, lo: int, hi: int) {
    forall i | lo <= i < hi && 0 <= i < |s| :: IsJsWhitespace(s[i])
  }

  /** The first position at or after `i` that does not hold whitespace, or
      `|s|`: where the text starts once leading whitespace is dropped. */
  function SkipLeading(s: string, i: nat): (k: nat)
    requires i <= |s|
    ensures i <= k <= |s|
    ensures WhitespaceBetween(s, i, k)
    ensures k == |s| || !IsJsWhitespace(s[k])
    decreases |s| - i
  {
    if i < |s| && IsJsWhitespace(s[i]) then SkipLeading(s, i + 1) else i
  }

  /** The last position at or before `j`, and not before `lo`, that follows a
      non-whitespace character, or `lo`: where the text ends once trailing
      whitespace is dropped. */
  function SkipTrailing(s: string, lo: nat, j: nat): (e: nat)
    requires lo <= j <= |s|
    ensures lo <= e <= j
    ensures WhitespaceBetween(s, e, j)
    ensures e == lo || !IsJsWhitespace(s[e - 1])
    decreases j
  {
    if j > lo && IsJsWhitespace(s[j - 1]) then SkipTrailing(s, lo, j - 1) else j
  }

  /** Neither end of `s` is whitespace. */
  predicate IsTrimmed(s: string) {
    s == [] || (!IsJsWhitespace(s[0]) && !IsJsWhitespace(s[|s| - 1]))
  }

  /** Where the trimmed text starts inside `s`. */
  function TrimOffset(s: string): (k: nat)
    ensures k <= |s|
  {
    SkipLeading(s, 0)
  }

  /** `String.prototype.trim`: the run of `s` between its leading and its
      trailing whitespace. */
  function Trim(s: string): (r: string)
    ensures IsTrimmed(r)
    ensures TrimOffset(s) + |r| <= |s|
    ensures s[TrimOffset(s)..TrimOffset(s) + |r|] == r
    ensures WhitespaceBetween(s, 0, TrimOffset(s))
    ensures WhitespaceBetween(s, TrimOffset(s) + |r|, |s|)
  {
    var k := SkipLeading(s, 0);
    var e := SkipTrailing(s, k, |s|);
    s[k..e]
  }

  /** Trimming changes exactly the strings that are not yet trimmed, so
      trimming twice is trimming once. */
  lemma TrimFixesTrimmed(s: string)
    ensures Trim(s) == s <==> IsTrimmed(s)
    ensures Trim(Trim(s)) == Trim(s)
  {
    if IsTrimmed(s) && s != [] {
      assert SkipLeading(s, 0) == 0;
      assert SkipTrailing(s, 0, |s|) == |s|;
    }
    var r := Trim(s);
    if r != [] {
      assert SkipLeading(r, 0) == 0;
      assert SkipTrailing(r, 0, |r|) == |r|;
    }
  }

  /** A string trims to nothing exactly when every character is whitespace. */
  lemma TrimEmptyIff(s: string)
    ensures Trim(s) == [] <==> AllWhitespace(s)
  {
    var k := TrimOffset(s);
    var r := Trim(s);
    if r != [] {
      assert r[0] == s[k];
    }
  }

  /** ASCII-only `toLowerCase`. */
  function LowerChar(c: char): char {
    if 'A' <= c <= 'Z' then (c as int + 32) as char else c
  }

  function Lower(s: string): (r: string)
    ensures |r| == |s|
    ensures forall i | 0 <= i < |s| :: r[i] == LowerChar(s[i])
  {
    seq(|s|, i requires 0 <= i < |s| => LowerChar(s[i]))
  }

  /** `hay.includes(needle)`: `needle` occurs as a contiguous run of `hay`.
      The empty string is in every string; nothing longer than `hay` is; and
      a needle as long as `hay` is included only when it is `hay`. */
  function Includes(hay: string, needle: string): (r: bool)
    ensures needle == [] ==> r
    ensures r ==> |needle| <= |hay|
    ensures |needle| == |hay| ==> (r <==> needle == hay)
  {
    assert OccursAt(hay, needle, 0) <==> |needle| <= |hay| && hay[..|needle|] == needle;
    exists i | 0 <= i <= |hay| - |needle| :: OccursAt(hay, needle, i)
  }

  predicate OccursAt(hay: string, needle: string, i: int) {
    0 <= i <= |hay| - |needle| && hay[i..i + |needle|] == needle
  }

  /** A string includes every run it is built around. */
  lemma IncludesInfix(a: string, b: string, c: string)
    ensures Includes(a + b + c, b)
  {
    assert (a + b + c)[|a|..|a| + |b|] == b;
    assert OccursAt(a + b + c, b, |a|);
  }

  /** Conversely, an included needle cuts the string into a part before it,
      the needle, and a part after it. */
  lemma IncludesSplits(hay: string, needle: string)
    requires Includes(hay, needle)
    ensures exists a, c :: hay == a + needle + c
  {
    var i :| 0 <= i <= |hay| - |needle| && OccursAt(hay, needle, i);
    assert hay == hay[..i] + needle + hay[i + |needle|..];
  }
}

=== FILE: types.dfy ===
/** The records that travel between the dashboard and the API, shaped after
    parking-spot-manager/src/types/parking.ts. A request body field the
    client may leave out is an `Option`: `None` is JavaScript's `undefined`.
 */
module Types {

  datatype Option<+T> = None | Some(value: T) {
    /** The value, or `default` when the field was left out. */
    function GetOr(default: T): T {
      match this
      case Some(v) => v
      case None => default
    }
  }

  /** The store's opaque identifier (a Mongo ObjectId rendered as a string). */
  type Id = string

  /** A stored parking location. Timestamps are not modelled. */
  datatype Parking = Parking(
    id: Id,
    name: string,
    totalSlots: int,
    availableSlots: int,
    isAvailable: bool)

  /** The persistent collection: one record per identifier. */
  type Store = map<Id, Parking>

  /** Body of POST /api/parkings. `isAvailable` is here so that the server's
      disregard for it can be stated; the client never sends it. */
  datatype CreateBody = CreateBody(
    parkingName: Option<string>,
    totalSlots: Option<int>,
    availableSlots: Option<int>,
    isAvailable: Option<bool>)

  /** Body of PUT /api/parkings/:id. The server strips `parkingName`. */
  datatype UpdateBody = UpdateBody(
    parkingName: Option<string>,
    totalSlots: Option<int>,
    availableSlots: Option<int>,
    isAvailable: Option<bool>)

  /** Body of PATCH /api/parkings/:id/availability. */
  datatype AvailabilityBody = AvailabilityBody(
    availableSlots: Option<int>,
    isAvailable: Option<bool>)
}
